=== FILE: README.md ===
# chess-chiller decision logic in Dafny

chess-chiller reads the games of a PGN file and walks each game backwards
from its final position. For every position it asks an engine for the two
best lines (multipv 2). It writes the position out as an EPD record when the
best line is clearly better than the second one. This project models the
decisions behind that choice and proves properties about them. Chess rules
and the engine appear only as given per-position and per-update data.

- `Material` models `piece_value`. It is the material of the knights,
  bishops, rooks and queens, counted in the first whitespace-separated
  field of the EPD text.
- `Scores` holds the two threshold sets. One is for the default mode and
  one for `--positional`. It also holds the early-exit gap
  `minscorediffcheck` derived from them.
- `Classify` models the two classifiers, `interesting_pos` and
  `positional_pos`. `interesting_pos` also has a reference definition as
  an ordered tier table walked first-match.
- `Search` models the multipv-2 analysis loop. The loop is a left fold of
  `Step` over a finite `seq<Update>`. `Analyse` is the same loop written as
  an imperative `while` with `break`.
- `Walk` models the reverse walk over one game:
  - the draw skip;
  - the move-number floor;
  - the static gate (material, pin, check);
  - the search of each gated position, with the scores carried over from the previous search;
  - the save filters.

  An error that escapes `analyze_game` is modelled as a `Crashed` ending. Examples are popping the initial board, or reading `bs1`/`bs2` before any search assigned them. A search whose save decision raises is kept as the walk's last visit, so the crash can be traced to its board and its scores.

Comparisons against halves of a threshold are made exact in integers.
`bs1 < minbest1score3/2` becomes `2 * bs1 < floor3`. `bs1 - bs2 <
minscorediffcheck` becomes `2 * (bs1 - bs2) < MinGap(th)`, where `MinGap`
is twice `minscorediffcheck`. Times are integer milliseconds.

Where the code and its description differ, the model follows the code:
- There is no upper material limit.
- The first qualifying best move of a search already counts as a change.
- The second and third positional bands reach up to the next-higher floor,
  not 50 above their own floor.
- A position that fails the classifier is simply not written.
- The log lines right after a search (chess-chiller.py:278-280) format
  `bs1` and `bs2` eagerly, whatever the log level. A search that leaves
  either score unassigned therefore raises there, before any save filter,
  instead of excluding the position (`Walk.MissingScore2Aborts`). The
  first search of a game with no rank-2 update ends the run this way.
- `analyze_game`'s own keyword defaults (2000/1000/500, 300/200/100, gap 25)
  are never used: `main` always passes the mode's thresholds, the gap it
  derived, and the move floor 16. `Walk.MainConfig` builds that configuration.
- `bs1` and `bs2` are not reset between positions.
  - The first search of a game starts with no score (`Walk.FirstSearchStartsUnscored`).
  - Every later search starts with the scores the previous search left (`Walk.ScoresCarryOver`).
- Once the minimum time has passed, the gap check reads both scores. If
  one was never assigned, it raises. The generic handler swallows the
  error, so `oldtmpmove` is not updated and the same best move counts
  again on every candidate update after the minimum time
  (`Search.RecountWhileUnscored`). Before the minimum time the check
  short-circuits and the recording happens as usual. With both scores
  known, a repeated best move counts once (`Search.CountOnceWhenScored`).

## Model

| member | source | states |
|---|---|---|
| Material.FirstField | chess-chiller.py:54 | `split()[0]` is absent exactly when the text holds only whitespace; otherwise it is the non-empty run without whitespace that starts after the leading whitespace and ends at the next whitespace or the end of the text |
| Material.PieceValue | chess-chiller.py:52-68 | the value is absent exactly when the EPD text has no field (the `IndexError`); otherwise it is the per-character weight sum of the first field |
| Material.CountValueIsWeightSum | chess-chiller.py:55-64 | the eight-count formula 3·(n+b+N+B) + 5·(r+R) + 9·(q+Q) equals the sum of per-character weights |
| Material.InertCharacterAddsNothing | chess-chiller.py:55-64 | pawns, kings, digits and '/' add nothing wherever they are inserted |
| Material.LaterFieldsIgnored | chess-chiller.py:54 | only the text before the first separator counts; the later EPD fields never change the value |
| Material.StartPositionValue | chess-chiller.py:368-369 | the standard start position is worth 62, the default minimum piece value |
| Scores.Defaults | chess-chiller.py:402-417 | both threshold sets of `main` satisfy the documented ordering floor1 > floor2 > floor3, ceil1 > ceil2 > ceil3 |
| Scores.MinGap | chess-chiller.py:419-425 | twice `minscorediffcheck` is no larger than any tier gap floor_i − ceil_i and equals one of them |
| Scores.DefaultGaps | chess-chiller.py:400-425 | `minscorediffcheck` is 75 with the default thresholds and 25 in positional mode |
| Classify.InterestingPos | chess-chiller.py:71-106 | per tier chosen by `bs1`, acceptance holds iff `bs2` is within that tier's ceiling, with a doubled ceiling for mate scores in tier 1; false below every floor |
| Classify.InterestingMatchesTable | chess-chiller.py:91-106 | `interesting_pos` equals walking the ordered tier table and deciding by the first tier whose floor is reached |
| Classify.InterestingNeedsFloor3 | chess-chiller.py:81-106 | under the documented ordering the result is false whenever `bs1` is below the lowest floor |
| Classify.NoFallThrough | chess-chiller.py:91-99 | a non-mate tier-1 score whose `bs2` misses the tier-1 ceiling is rejected, never retried against the looser tiers |
| Classify.MateDoublesCeiling | chess-chiller.py:91-96 | for a mate score in tier 1 (with a non-negative ceiling) acceptance is exactly `bs2 <= 2·ceil1` |
| Classify.InterestingMonotone | chess-chiller.py:81-106 | under the documented ordering, raising `bs1` or lowering `bs2` never turns an accepted position into a rejected one |
| Classify.PositionalPos | chess-chiller.py:109-126 | `positional_pos` as the three independent bands of lines 114-122; it has no contract of its own, and its properties are the rows `PositionalScoresReachable`, `PositionalBandsOverlap`, `PositionalWindow` and `DefaultExamples` |
| Classify.PositionalScoresReachable | chess-chiller.py:114-122 | under the ordering, some `bs2` makes `bs1` positional exactly when floor3 <= bs1 <= floor1+50: the three `bs1` ranges leave no gap |
| Classify.PositionalBandsOverlap | chess-chiller.py:91-122 | the bands are independent, not first-match: at bs1 = floor1 both the tier-1 and tier-2 `bs2` ranges accept, while `interesting_pos` accepts only up to ceil1 |
| Classify.PositionalWindow | chess-chiller.py:114-122 | under the ordering a positional position has floor3 <= bs1 <= floor1+50 and ceil3−25 <= bs2 <= ceil1, so it is false outside that window |
| Classify.DefaultExamples | chess-chiller.py:109-126 | concrete cases with both default sets, among them bs1 = 120, bs2 = 40 being positional |
| Search.Begin | chess-chiller.py:215-218 | the reset at the start of each position's search: best moves, depth, stored PV, the counter and both recorded moves start empty, while `bs1` and `bs2` keep the values given; it has no contract of its own, and `Walk.ScoresCarryOver` and `Walk.FirstSearchStartsUnscored` state what the kept scores are |
| Search.Head5 | chess-chiller.py:230 | `pv[0:5]` is the prefix of the PV of length five, or the whole PV when it is shorter |
| Search.Step | chess-chiller.py:223-271 | one update: a stopped loop stays put; depth is overwritten exactly when the update carries both `multipv` and `depth`, and an incomplete update changes nothing else; the counter grows by one exactly on a counting candidate, and then `tmpmove` holds the new first PV move; the stop condition (hopeless rank-1 score, or small gap after the minimum time) as an iff; each line and the stored PV take the values of a full update for it; the head of the stored PV stays the rank-1 move |
| Search.StepRecords | chess-chiller.py:243-266 | for every state and update, `tmpmove` takes the first PV move exactly on a candidate the loop does not break on as hopeless; `oldtmpmove` takes `tmpmove` exactly when the update reaches line 266, that is, before the minimum time or when both scores are known and the gap check does not break |
| Search.Run | chess-chiller.py:220-271 | the fold never lowers the counter and raises it by at most the number of candidates; a stopped state is final; the PV/best-move agreement is kept |
| Search.Consumed | chess-chiller.py:220-264 | the loop reads at most all updates and none once stopped (which ones it reads is `Search.ConsumedPrefix`) |
| Search.Analyse | chess-chiller.py:220-271 | the `while` loop with `break` computes the fold |
| Search.RunAppend | chess-chiller.py:221-271 | reading a stream in two pieces is reading it whole |
| Search.StopIsFinal | chess-chiller.py:238-264 | once the loop has stopped, no later update changes the state |
| Search.CounterGrows | chess-chiller.py:243-251 | the complexity counter never decreases along the stream |
| Search.ConsumedPrefix | chess-chiller.py:238-264 | the loop was still running before each update it reads, so it reads up to and including the update it breaks on and no further; the result depends only on those updates, and reading fewer than all means the loop stopped |
| Search.LineIsLatest | chess-chiller.py:233-255 | each line ends with the first PV move and score of the latest full update for it among those read, or what it held before the search |
| Search.PvIsLatest | chess-chiller.py:233-236 | the stored PV is the first five moves of the latest full rank-1 update read, or the old value if there is none |
| Search.FirstCandidateCounts | chess-chiller.py:217-251 | the recorded moves start empty, so after any updates without a candidate (the shallow ones every search begins with), the first candidate the loop does not break on brings the counter to 1 |
| Search.RecountWhileUnscored | chess-chiller.py:243-271 | for every stream of candidates after the minimum time with the same first move, while `bs2` is unassigned, each one increments the counter |
| Search.CountOnceWhenScored | chess-chiller.py:243-266 | for every stream of candidates with the same first move and a wide enough gap, once `bs2` is known the counter grows by one at most, and by none when that move was already recorded |
| Search.UnassignedScoreRecounts | chess-chiller.py:257-271 | a worked trace: with `bs2` never assigned, three identical candidates count three times; with both scores known they count once |
| Walk.MainConfig | chess-chiller.py:400-417 | `main`'s configuration uses the move floor 16 and the mode's ordered thresholds |
| Walk.GateOf | chess-chiller.py:196-209 | a popped position reaches the engine iff its piece value reaches the minimum, the pin filter is off or satisfied, and the side to move is not in check; an EPD text without a field crashes; a failing board is labelled by the first filter it fails in the source's order: material, then pin, then check |
| Walk.Decide | chess-chiller.py:278-317 | the position is saved iff every save filter passes and the mode's classifier accepts; it raises exactly when `bs1` or `bs2` is unassigned (the log reads at 278-280), or when the best move is missing for a score at or above the lowest floor; a known low score is rejected |
| Walk.AdvanceFrom | chess-chiller.py:184-317 | one pass of the walk halts exactly when the popped board has no placement field; otherwise the visit agrees with the gate and the decision (including a decision that raises), a search is the session over the board's stream started from the carried scores and hands its scores on, and a skipped board leaves the scores alone |
| Walk.WalkFrom | chess-chiller.py:172-209 | visits are the consecutive boards after the start, each of the boards popped has move number at least the floor |
| Walk.VisitsAgree | chess-chiller.py:176-317 | every visit of the walk is what the gate and the save decision say about its board, and only the last visit can be a search whose decision raised |
| Walk.WalkEnding | chess-chiller.py:176-317 | when the last visit is a search whose decision raised, the walk crashes with exactly that fault; otherwise it stops at the first board about to be popped whose move number is below the floor, on popping the initial board, or on a popped board without a placement field |
| Walk.AnalyzeGame | chess-chiller.py:164-317 | a drawn game is skipped exactly when skipdraw is set; otherwise it is the walk from the final position with no known scores; its visits agree with the gate and the decision; only its last visit can be a decision that raised; its ending agrees with where the walk stopped; it ends at the floor exactly when no decision raised and the last board reached lies below it |
| Walk.ScoresCarryOver | chess-chiller.py:215-236 | each search starts from the scores the latest earlier search in the walk left, not from fresh ones |
| Walk.DecisionCrash | chess-chiller.py:176-317 | a game's walk crashes with a decision fault exactly when its last visit is a search whose decision raised; that search ran from the scores the earlier searches left, and the crash is the fault `Decide` gives for it |
| Walk.FirstSearchStartsUnscored | chess-chiller.py:215-218 | the first search of a game starts with neither score known |
| Walk.SavedPositionsQualify | chess-chiller.py:196-317 | a written position lies before the floor, passed the gate and passed every save filter including the classifier |
| Walk.SimpleCaptureRejected | chess-chiller.py:287-290 | with both scores known and a score at or above the lowest floor, a capturing best move with complexity at most 1 is rejected |
| Walk.MissingScore2Aborts | chess-chiller.py:278-280 | with `bs1` known and `bs2` unassigned the decision raises, whatever the scores, before any save filter |

## Left out

- The logger setup and the log output. The one effect of the log calls that matters is modelled: the eager reads of `bs1` and `bs2` at chess-chiller.py:278-280, which raise when a score is unassigned. The progress printing is left out too.
- Argument parsing, engine start-up and configuration, PGN reading, and the loop over the games in `main`. These are process and file plumbing. `Walk.MainConfig` keeps the constants `main` passes on.
- The engine itself and its sleeps. A search is a given finite sequence of updates. The search time limit `maxtime` only bounds that sequence.
- Chess rules: move popping, check, pins (`abs_pinned`), captures and SAN. Each position carries them as given data. A game is the list of boards the pops produce.
- Mate-score normalisation: an update's score is already the relative centipawn value. A mate in n reads 32000 − n, and being mated in n reads −32000 + n.
- Building the EPD record and appending it to the output file. A saved position is a `Save` verdict.
- Floating-point times: they are integer milliseconds, and `int(t)` only formats output.
- Material.FirstField: separators are the ASCII whitespace characters of Python's `str.split()`. Non-ASCII Unicode whitespace is not modelled, because EPD text is ASCII.

=== FILE: Classify.dfy ===
/** The two classifiers, `interesting_pos` (chess-chiller.py:71-106) and
    `positional_pos` (chess-chiller.py:109-126), as integer predicates over
    the rank-1 score `bs1`, the rank-2 score `bs2` and the thresholds. */
module Classify {
  import opened Options
  import opened Scores

  /** Rank-1 scores from here up are mate scores: a mate in n moves is
      reported as 32000 - n. */
  const MateScore := 30000

  /** `interesting_pos`: the tier is chosen by `bs1` alone; only its ceiling is
      then tried. In tier 1 a mate score doubles the ceiling. */
  function InterestingPos(bs1: int, bs2: int, th: Thresholds): (r: bool)
    ensures bs1 >= th.floor1 ==>
              (r <==> bs2 <= th.ceil1 || (bs1 >= MateScore && bs2 <= 2 * th.ceil1))
    ensures th.floor2 <= bs1 < th.floor1 ==> (r <==> bs2 <= th.ceil2)
    ensures th.floor3 <= bs1 < th.floor1 && bs1 < th.floor2 ==> (r <==> bs2 <= th.ceil3)
    ensures bs1 < th.floor1 && bs1 < th.floor2 && bs1 < th.floor3 ==> !r
  {
    if bs1 >= th.floor1 then
      (bs1 >= MateScore && bs2 <= 2 * th.ceil1) || bs2 <= th.ceil1
    else if bs1 >= th.floor2 then
      bs2 <= th.ceil2
    else if bs1 >= th.floor3 then
      bs2 <= th.ceil3
    else
      false
  }

  /** `positional_pos`: three independent bands; tier 1 reaches 50 above its
      floor, tiers 2 and 3 reach up to the next-higher floor, and each rank-2
      band is the 25 centipawns below its ceiling. */
  function PositionalPos(bs1: int, bs2: int, th: Thresholds): bool {
    (th.floor1 <= bs1 <= th.floor1 + 50 && th.ceil1 - 25 <= bs2 <= th.ceil1)
    || (th.floor2 <= bs1 <= th.floor1 && th.ceil2 - 25 <= bs2 <= th.ceil2)
    || (th.floor3 <= bs1 <= th.floor2 && th.ceil3 - 25 <= bs2 <= th.ceil3)
  }

  /** The classifier the mode selects (chess-chiller.py:305-315). */
  function Classifies(bs1: int, bs2: int, th: Thresholds, positional: bool): bool {
    if positional then PositionalPos(bs1, bs2, th) else InterestingPos(bs1, bs2, th)
  }

  // ----- Reference definitions: the thresholds as tables walked in order -----

  /** One tier: a floor for `bs1` and a ceiling for `bs2`. */
  datatype Tier = Tier(floor: int, ceiling: int)

  function TierTable(th: Thresholds): seq<Tier> {
    [Tier(th.floor1, th.ceil1), Tier(th.floor2, th.ceil2), Tier(th.floor3, th.ceil3)]
  }

  /** Index of the first tier whose floor `bs1` reaches. */
  function FirstTier(tiers: seq<Tier>, bs1: int): (k: Option<nat>)
    ensures k.Some? ==> k.value < |tiers| && tiers[k.value].floor <= bs1
    ensures k.Some? ==> forall j :: 0 <= j < k.value ==> bs1 < tiers[j].floor
    ensures k.None? ==> forall j :: 0 <= j < |tiers| ==> bs1 < tiers[j].floor
  {
    if |tiers| == 0 then None
    else if tiers[0].floor <= bs1 then Some(0)
    else match FirstTier(tiers[1..], bs1)
      case None => None
      case Some(k) => Some(k + 1)
  }

  /** First match wins: the first tier reached decides, by its ceiling, which
      the top tier doubles for mate scores. */
  predicate InterestingByTable(bs1: int, bs2: int, th: Thresholds) {
    var tiers := TierTable(th);
    match FirstTier(tiers, bs1)
    case None => false
    case Some(k) =>
      bs2 <= tiers[k].ceiling || (k == 0 && bs1 >= MateScore && bs2 <= 2 * tiers[k].ceiling)
  }

  // ----- Lemmas -----

  /** `interesting_pos` is the ordered tier table walked top-down. */
  lemma InterestingMatchesTable(bs1: int, bs2: int, th: Thresholds)
    ensures InterestingPos(bs1, bs2, th) <==> InterestingByTable(bs1, bs2, th)
  {
    var tiers := TierTable(th);
    var k := FirstTier(tiers, bs1);
    assert |tiers| == 3 && tiers[0].floor == th.floor1 && tiers[1].floor == th.floor2 && tiers[2].floor == th.floor3;
    if bs1 >= th.floor1 {
      assert k == Some(0);
    } else if bs1 >= th.floor2 {
      assert k == Some(1);
    } else if bs1 >= th.floor3 {
      assert k == Some(2);
    } else {
      assert k.None?;
    }
  }

  /** Under the documented ordering, a rank-1 score can be positional for
      some rank-2 score exactly when it lies in `floor3 .. floor1 + 50`: the
      three `bs1` ranges leave no gap between them. */
  lemma PositionalScoresReachable(bs1: int, th: Thresholds)
    requires Ordered(th)
    ensures (exists bs2 :: PositionalPos(bs1, bs2, th)) <==> th.floor3 <= bs1 <= th.floor1 + 50
  {
    if th.floor3 <= bs1 <= th.floor1 + 50 {
      var bs2 := if bs1 >= th.floor1 then th.ceil1 else if bs1 >= th.floor2 then th.ceil2 else th.ceil3;
      assert PositionalPos(bs1, bs2, th);
    } else {
      forall bs2 ensures !PositionalPos(bs1, bs2, th) {
        PositionalWindow(bs1, bs2, th);
      }
    }
  }

  /** The bands are tried independently, not first-match: at `bs1 == floor1`
      both the tier-1 and the tier-2 rank-2 ranges accept, whereas
      `interesting_pos` there uses the tier-1 ceiling alone. */
  lemma PositionalBandsOverlap(bs2: int, th: Thresholds)
    requires Ordered(th) && th.floor1 < MateScore
    ensures PositionalPos(th.floor1, bs2, th) <==>
              (th.ceil1 - 25 <= bs2 <= th.ceil1) || (th.ceil2 - 25 <= bs2 <= th.ceil2)
    ensures InterestingPos(th.floor1, bs2, th) <==> bs2 <= th.ceil1
  {
  }

  /** Under the documented ordering nothing below the lowest floor is interesting. */
  lemma InterestingNeedsFloor3(bs1: int, bs2: int, th: Thresholds)
    requires Ordered(th)
    ensures InterestingPos(bs1, bs2, th) ==> bs1 >= th.floor3
  {
  }

  /** A failed tier-1 ceiling does not fall through to the looser tiers. */
  lemma NoFallThrough(bs1: int, bs2: int, th: Thresholds)
    requires bs1 >= th.floor1 && bs1 < MateScore && bs2 > th.ceil1
    ensures !InterestingPos(bs1, bs2, th)
  {
  }

  /** With a mate score in tier 1 the rank-2 ceiling is doubled. */
  lemma MateDoublesCeiling(bs1: int, bs2: int, th: Thresholds)
    requires bs1 >= th.floor1 && bs1 >= MateScore && th.ceil1 >= 0
    ensures InterestingPos(bs1, bs2, th) <==> bs2 <= 2 * th.ceil1
  {
  }

  /** Under the documented ordering, raising `bs1` or lowering `bs2` never
      turns an interesting position into an uninteresting one. */
  lemma InterestingMonotone(bs1: int, bs2: int, bs1': int, bs2': int, th: Thresholds)
    requires Ordered(th)
    requires bs1 <= bs1' && bs2' <= bs2
    ensures InterestingPos(bs1, bs2, th) ==> InterestingPos(bs1', bs2', th)
  {
  }

  /** Under the documented ordering a positional position has
      `floor3 <= bs1 <= floor1 + 50` and `ceil3 - 25 <= bs2 <= ceil1`. */
  lemma PositionalWindow(bs1: int, bs2: int, th: Thresholds)
    requires Ordered(th)
    ensures PositionalPos(bs1, bs2, th) ==>
              th.floor3 <= bs1 <= th.floor1 + 50 && th.ceil3 - 25 <= bs2 <= th.ceil1
  {
  }

  /** Worked examples with the default thresholds of both modes. */
  lemma DefaultExamples()
    ensures InterestingPos(2500, 250, InterestingDefaults)
    ensures !InterestingPos(2500, 350, InterestingDefaults)
    ensures InterestingPos(31000, 550, InterestingDefaults)
    ensures !InterestingPos(450, 260, InterestingDefaults)
    ensures !InterestingPos(1200, 310, InterestingDefaults)
    ensures PositionalPos(120, 40, PositionalDefaults)
    ensures PositionalPos(800, 190, InterestingDefaults)
    ensures !PositionalPos(160, 40, PositionalDefaults)
  {
  }
}

=== FILE: Material.dfy ===
/** The material count `piece_value` (chess-chiller.py:52-68): the value of
    the knights, bishops, rooks and queens of both sides, read off the piece
    placement field of a position's EPD text. */
module Material {
  import opened Options

  /** The default `--minpiecevalue`. */
  const DefaultMinPieceValue: nat := 62

  /** The EPD text of the standard starting position. */
  const StartEpd: string := "rnbqkbnr/pppppppp/8/8/8/8/PPPPPPPP/RNBQKBNR w KQkq -"

  /** The ASCII characters that Python's `str.split()` treats as separators. */
  predicate IsSpace(c: char) {
    c == ' ' || c == '\t' || c == '\n' || c == '\r' || c == '\U{0B}' || c == '\U{0C}'
    || ('\U{1C}' <= c <= '\U{1F}')
  }

  /** The value one placement character contributes. */
  function Weight(c: char): nat {
    if c == 'n' || c == 'b' || c == 'N' || c == 'B' then 3
    else if c == 'r' || c == 'R' then 5
    else if c == 'q' || c == 'Q' then 9
    else 0
  }

  /** Number of occurrences of `c` in `s` (Python's `str.count` on one character). */
  function Count(s: string, c: char): (n: nat)
    ensures n <= |s|
  {
    if |s| == 0 then 0 else (if s[0] == c then 1 else 0) + Count(s[1..], c)
  }

  /** The source's formula: eight counts, each times its piece's value. */
  function CountValue(field: string): nat {
    Count(field, 'n') * 3 + Count(field, 'b') * 3 + Count(field, 'r') * 5 + Count(field, 'q') * 9
    + Count(field, 'N') * 3 + Count(field, 'B') * 3 + Count(field, 'R') * 5 + Count(field, 'Q') * 9
  }

  /** Reference definition: the sum of the weights of the characters. */
  function WeightSum(s: string): nat {
    if |s| == 0 then 0 else Weight(s[0]) + WeightSum(s[1..])
  }

  /** Number of separators at the start of `s`. */
  function LeadingSpaces(s: string): (n: nat)
    ensures n <= |s|
    ensures forall i :: 0 <= i < n ==> IsSpace(s[i])
    ensures n < |s| ==> !IsSpace(s[n])
  {
    if |s| > 0 && IsSpace(s[0]) then 1 + LeadingSpaces(s[1..]) else 0
  }

  /** The longest prefix of `s` without a separator. */
  function Token(s: string): (r: string)
    ensures r <= s
    ensures forall i :: 0 <= i < |r| ==> !IsSpace(r[i])
    ensures |r| < |s| ==> IsSpace(s[|r|])
  {
    if |s| > 0 && !IsSpace(s[0]) then [s[0]] + Token(s[1..]) else []
  }

  /** `epd.split()[0]`: the first field, or `None` where Python raises
      `IndexError` because the text holds only separators. */
  function FirstField(epd: string): (r: Option<string>)
    ensures r.None? <==> forall i :: 0 <= i < |epd| ==> IsSpace(epd[i])
    ensures r.Some? ==> |r.value| > 0 && forall i :: 0 <= i < |r.value| ==> !IsSpace(r.value[i])
    ensures r.Some? ==>
              && LeadingSpaces(epd) + |r.value| <= |epd|
              && epd[LeadingSpaces(epd)..LeadingSpaces(epd) + |r.value|] == r.value
              && (LeadingSpaces(epd) + |r.value| == |epd| || IsSpace(epd[LeadingSpaces(epd) + |r.value|]))
  {
    var n := LeadingSpaces(epd);
    if n == |epd| then None
    else
      var t := Token(epd[n..]);
      assert epd[n..][..|t|] == epd[n..n + |t|];
      Some(t)
  }

  /** `piece_value`: the material of the placement field. */
  function PieceValue(epd: string): (r: Option<nat>)
    ensures r.None? <==> forall i :: 0 <= i < |epd| ==> IsSpace(epd[i])
    ensures r.Some? ==> r.value == WeightSum(FirstField(epd).value)
  {
    match FirstField(epd)
    case None => None
    case Some(field) =>
      CountValueIsWeightSum(field);
      Some(CountValue(field))
  }

  /** The eight-count formula and the per-character weight sum agree. */
  lemma {:induction false} CountValueIsWeightSum(s: string)
    ensures CountValue(s) == WeightSum(s)
  {
    if |s| > 0 {
      CountValueIsWeightSum(s[1..]);
    }
  }

  lemma {:induction false} WeightSumAppend(a: string, b: string)
    ensures WeightSum(a + b) == WeightSum(a) + WeightSum(b)
  {
    if |a| == 0 {
      assert a + b == b;
    } else {
      assert (a + b)[1..] == a[1..] + b;
      WeightSumAppend(a[1..], b);
    }
  }

  /** Pawns, kings, empty-square digits and rank separators add nothing:
      inserting one anywhere leaves the value unchanged. */
  lemma InertCharacterAddsNothing(a: string, c: char, b: string)
    requires c in "pPkK12345678/"
    ensures WeightSum(a + [c] + b) == WeightSum(a + b)
  {
    WeightSumAppend(a + [c], b);
    WeightSumAppend(a, [c]);
    WeightSumAppend(a, b);
  }

  /** Only the text before the first separator counts: whatever follows
      (side to move, castling, en passant, operations) adds nothing. */
  lemma LaterFieldsIgnored(field: string, sep: char, rest: string)
    requires |field| > 0 && forall i :: 0 <= i < |field| ==> !IsSpace(field[i])
    requires IsSpace(sep)
    ensures PieceValue(field + [sep] + rest) == Some(WeightSum(field))
  {
    var epd := field + [sep] + rest;
    assert LeadingSpaces(epd) == 0;
    assert epd[0..] == epd;
    TokenStopsAtSeparator(field, sep, rest);
  }

  lemma {:induction false} TokenStopsAtSeparator(field: string, sep: char, rest: string)
    requires forall i :: 0 <= i < |field| ==> !IsSpace(field[i])
    requires IsSpace(sep)
    ensures Token(field + [sep] + rest) == field
  {
    if |field| > 0 {
      assert (field + [sep] + rest)[1..] == field[1..] + [sep] + rest;
      TokenStopsAtSeparator(field[1..], sep, rest);
    } else {
      assert field + [sep] + rest == [sep] + rest;
    }
  }

  /** The standard starting position is worth exactly the default minimum. */
  lemma StartPositionValue()
    ensures PieceValue(StartEpd) == Some(DefaultMinPieceValue)
  {
    var field := "rnbqkbnr/pppppppp/8/8/8/8/PPPPPPPP/RNBQKBNR";
    assert StartEpd == field + [' '] + "w KQkq -";
    LaterFieldsIgnored(field, ' ', "w KQkq -");
    StartFieldValue();
  }

  lemma StartFieldValue()
    ensures WeightSum("rnbqkbnr/pppppppp/8/8/8/8/PPPPPPPP/RNBQKBNR") == 62
  {
    assert "rnbqkbnr/pppppppp/8/8/8/8/PPPPPPPP/RNBQKBNR"
        == "rnbqkbnr" + "/pppppppp/8/8/8/8/PPPPPPPP/" + "RNBQKBNR";
    WeightSumJoin("rnbqkbnr", "/pppppppp/8/8/8/8/PPPPPPPP/", "RNBQKBNR");
    BlackBackRank();
    WhiteBackRank();
    MiddleRanks();
  }

  lemma WeightSumJoin(a: string, b: string, c: string)
    ensures WeightSum(a + b + c) == WeightSum(a) + WeightSum(b) + WeightSum(c)
  {
    WeightSumAppend(a + b, c);
    WeightSumAppend(a, b);
  }

  lemma MiddleRanks()
    ensures WeightSum("/pppppppp/8/8/8/8/PPPPPPPP/") == 0
  {
    MiddleIsInert("/pppppppp/8/8/8/8/PPPPPPPP/");
  }

  lemma BlackBackRank()
    ensures WeightSum("rnbqkbnr") == 31
  {
    assert "rnbqkbnr" == "rnbq" + "kbnr";
    WeightSumAppend("rnbq", "kbnr");
    Quarter("rnbq");
    Quarter("kbnr");
  }

  lemma WhiteBackRank()
    ensures WeightSum("RNBQKBNR") == 31
  {
    assert "RNBQKBNR" == "RNBQ" + "KBNR";
    WeightSumAppend("RNBQ", "KBNR");
    Quarter("RNBQ");
    Quarter("KBNR");
  }

  lemma Quarter(s: string)
    requires |s| == 4
    ensures WeightSum(s) == Weight(s[0]) + Weight(s[1]) + Weight(s[2]) + Weight(s[3])
  {
    assert s[1..][0] == s[1] && s[1..][1..] == s[2..];
    assert s[2..][0] == s[2] && s[2..][1..] == s[3..];
    assert s[3..][0] == s[3] && s[3..][1..] == [];
    assert WeightSum(s[3..]) == Weight(s[3]);
    assert WeightSum(s[2..]) == Weight(s[2]) + Weight(s[3]);
  }

  lemma {:induction false} MiddleIsInert(s: string)
    requires forall i :: 0 <= i < |s| ==> Weight(s[i]) == 0
    ensures WeightSum(s) == 0
  {
    if |s| > 0 {
      MiddleIsInert(s[1..]);
    }
  }
}

=== FILE: Options.dfy ===
/** An optional value: the model's stand-in for Python's `None` and for a
    local variable that has not been assigned yet. */
module Options {

  datatype Option<+T> = None | Some(value: T)

}

=== FILE: Scores.dfy ===
/** The six score thresholds of the classifiers and the early-exit score gap
    derived from them (chess-chiller.py:400-425). Scores are centipawns from
    the side to move's point of view. */
module Scores {

  /** `floor_i` is `minbest1scoreI`, the least rank-1 score of tier i;
      `ceil_i` is `maxbest2scoreI`, the greatest rank-2 score of tier i. */
  datatype Thresholds = Thresholds(floor1: int, floor2: int, floor3: int,
                                   ceil1: int, ceil2: int, ceil3: int)

  /** The ordering the classifiers' documentation asks for. */
  predicate Ordered(th: Thresholds) {
    th.floor1 > th.floor2 > th.floor3 && th.ceil1 > th.ceil2 > th.ceil3
  }

  /** The thresholds used without `--positional`. */
  const InterestingDefaults := Thresholds(1000, 500, 300, 300, 200, 150)

  /** The thresholds used with `--positional`. */
  const PositionalDefaults := Thresholds(100, 50, 0, 50, 0, -50)

  function Defaults(positional: bool): (th: Thresholds)
    ensures Ordered(th)
  {
    if positional then PositionalDefaults else InterestingDefaults
  }

  /** Twice `minscorediffcheck`: the smallest of the three tier gaps
      `floor_i - ceil_i`. The search stops early once `bs1 - bs2` falls below
      half of it, which in integers reads `2 * (bs1 - bs2) < MinGap(th)`. */
  function MinGap(th: Thresholds): (g: int)
    ensures g <= th.floor1 - th.ceil1 && g <= th.floor2 - th.ceil2 && g <= th.floor3 - th.ceil3
    ensures g == th.floor1 - th.ceil1 || g == th.floor2 - th.ceil2 || g == th.floor3 - th.ceil3
  {
    var g1 := th.floor1 - th.ceil1;
    var g2 := th.floor2 - th.ceil2;
    var g3 := th.floor3 - th.ceil3;
    if g1 <= g2 && g1 <= g3 then g1 else if g2 <= g3 then g2 else g3
  }

  /** `minscorediffcheck` is 75 with the default thresholds and 25 in
      positional mode. */
  lemma DefaultGaps()
    ensures MinGap(InterestingDefaults) == 2 * 75
    ensures MinGap(PositionalDefaults) == 2 * 25
  {
  }
}

=== FILE: Search.dfy ===
/** The multipv-2 search session inside `analyze_game`
    (chess-chiller.py:215-271): the engine's stream of progress updates is a
    given finite sequence, folded left to right into a session state. */
module Search {
  import opened Options
  import opened Scores

  /** A move in UCI text form, such as "e2e4" or "e7e8q". */
  type Move = string

  /** One engine progress update. A field is `None` when the update lacks that
      key; `lowerbound` and `upperbound` say whether those keys are present.
      `score` is already normalised (a mate in n reads 32000 - n, being mated
      in n reads -32000 + n), and `timeMs` is the elapsed search time in
      milliseconds. */
  datatype Update = Update(multipv: Option<int>, depth: Option<int>, score: Option<int>,
                           pv: Option<seq<Move>>, timeMs: Option<int>,
                           lowerbound: bool, upperbound: bool)

  /** The minimum search time before any early exit, and the thresholds the
      early exits are computed from. */
  datatype Limits = Limits(minTimeMs: int, th: Thresholds)

  /** The session's local variables: best move and score of each line, the
      reached depth, the rank-1 principal variation, the complexity counter
      `bestmovechanges`, the recorded moves `tmpmove`/`oldtmpmove`, and whether
      the loop has been left with `break`. */
  datatype SearchState = SearchState(bm1: Option<Move>, bs1: Option<int>,
                                     bm2: Option<Move>, bs2: Option<int>,
                                     depth: Option<int>, rawPv: Option<seq<Move>>,
                                     changes: nat, tmpMove: Option<Move>,
                                     oldTmpMove: Option<Move>, stopped: bool)

  /** A fresh session. Only the moves, depth, PV, counter and recorded moves
      are reset; the scores carry over from the previous position. */
  function Begin(bs1: Option<int>, bs2: Option<int>): SearchState {
    SearchState(None, bs1, None, bs2, None, None, 0, None, None, false)
  }

  /** The rank-1 best move is the head of the stored PV, which has 1 to 5 moves. */
  predicate Wf(st: SearchState) {
    && (st.bm1.Some? <==> st.rawPv.Some?)
    && (st.rawPv.Some? ==> 1 <= |st.rawPv.value| <= 5 && st.bm1.value == st.rawPv.value[0])
  }

  /** `pv[0:5]`. */
  function Head5(pv: seq<Move>): (r: seq<Move>)
    ensures |r| == if |pv| <= 5 then |pv| else 5
    ensures r <= pv
  {
    if |pv| <= 5 then pv else pv[..5]
  }

  /** The update has all five keys the handler reads. */
  predicate Complete(u: Update) {
    u.multipv.Some? && u.depth.Some? && u.score.Some? && u.pv.Some? && u.timeMs.Some?
  }

  /** A complete update for line `k` with a non-empty PV: the only kind that
      assigns `bm_k`/`bs_k` (an empty PV raises on `pv[0]`). */
  predicate Full(u: Update, k: int) {
    Complete(u) && u.multipv.value == k && |u.pv.value| > 0
  }

  /** A rank-1 update after the minimum time whose score is below half the
      lowest floor: the session breaks right after recording it. */
  predicate Hopeless(u: Update, lim: Limits) {
    Full(u, 1) && u.timeMs.value >= lim.minTimeMs && 2 * u.score.value < lim.th.floor3
  }

  /** A rank-1 update that enters the complexity check: no bound key and depth at least 4. */
  predicate Candidate(u: Update) {
    Full(u, 1) && !u.lowerbound && !u.upperbound && u.depth.value >= 4
  }

  /** The update increments the complexity counter. */
  predicate Counts(st: SearchState, u: Update, lim: Limits) {
    !st.stopped && Candidate(u) && !Hopeless(u, lim) && Some(u.pv.value[0]) != st.oldTmpMove
  }

  /** The update gets as far as the score-gap check. */
  predicate ReachesGapCheck(u: Update, lim: Limits) {
    Complete(u) && !Hopeless(u, lim) && (u.multipv.value == 1 || u.multipv.value == 2 ==> |u.pv.value| > 0)
  }

  /** The update is a complexity candidate the loop does not break on: it
      records its first move as `tmpmove`. */
  predicate Records(st: SearchState, u: Update, lim: Limits) {
    !st.stopped && Candidate(u) && !Hopeless(u, lim)
  }

  /** The update reaches line 266 (`oldtmpmove = tmpmove`): it gets to the
      gap check, and the check neither raises on an unassigned score (after
      the minimum time) nor breaks. `after` is the state with the update's
      scores assigned. */
  predicate ReachesRecording(u: Update, after: SearchState, lim: Limits) {
    && ReachesGapCheck(u, lim)
    && (u.timeMs.value < lim.minTimeMs || (after.bs1.Some? && after.bs2.Some? && !GapTooSmall(after, lim)))
  }

  /** Both scores are known and their gap is below half of the minimum tier gap. */
  predicate GapTooSmall(st: SearchState, lim: Limits) {
    st.bs1.Some? && st.bs2.Some? && 2 * (st.bs1.value - st.bs2.value) < MinGap(lim.th)
  }

  /** Best move and score of line `k`. */
  function Line(st: SearchState, k: int): (Option<Move>, Option<int>) {
    if k == 1 then (st.bm1, st.bs1) else (st.bm2, st.bs2)
  }

  /** What a full update reports for its line. */
  function Reported(u: Update): (Option<Move>, Option<int>)
    requires Complete(u) && |u.pv.value| > 0
  {
    (Some(u.pv.value[0]), u.score)
  }

  /** Lines 257-266, reached with elapsed time `t`: stop on a small gap, or
      record the current move as the previous one. When a score was never
      assigned, reading it raises; the generic handler swallows the error and
      the recording is skipped. */
  function Settle(st: SearchState, t: int, lim: Limits): SearchState {
    if t >= lim.minTimeMs then
      if st.bs1.None? || st.bs2.None? then st
      else if 2 * (st.bs1.value - st.bs2.value) < MinGap(lim.th) then st.(stopped := true)
      else st.(oldTmpMove := st.tmpMove)
    else st.(oldTmpMove := st.tmpMove)
  }

  /** One pass of the loop body with its two exception handlers. */
  function Step(st: SearchState, u: Update, lim: Limits): (r: SearchState)
    ensures st.stopped ==> r == st
    ensures !Complete(u) ==> r == st.(depth := r.depth)
    ensures r.depth == if !st.stopped && u.multipv.Some? && u.depth.Some? then u.depth else st.depth
    ensures r.changes == st.changes + (if Counts(st, u, lim) then 1 else 0)
    ensures r.changes > st.changes ==> r.tmpMove == Some(u.pv.value[0]) && st.oldTmpMove != r.tmpMove
    ensures !st.stopped ==>
              (r.stopped <==> Hopeless(u, lim)
                              || (ReachesGapCheck(u, lim) && u.timeMs.value >= lim.minTimeMs && GapTooSmall(r, lim)))
    ensures !st.stopped ==> Line(r, 1) == (if Full(u, 1) then Reported(u) else Line(st, 1))
    ensures !st.stopped ==> Line(r, 2) == (if Full(u, 2) then Reported(u) else Line(st, 2))
    ensures !st.stopped ==> r.rawPv == (if Full(u, 1) then Some(Head5(u.pv.value)) else st.rawPv)
    ensures Wf(st) ==> Wf(r)
  {
    if st.stopped || u.multipv.None? || u.depth.None? then st
    else if !Complete(u) then st.(depth := u.depth)
    else
      var pv := Head5(u.pv.value);
      var t := u.timeMs.value;
      var st1 := st.(depth := u.depth);
      if u.multipv.value == 1 then
        if |pv| == 0 then st1
        else
          var st2 := st1.(bm1 := Some(pv[0]), bs1 := u.score, rawPv := Some(pv));
          if t >= lim.minTimeMs && 2 * u.score.value < lim.th.floor3 then st2.(stopped := true)
          else if !u.lowerbound && !u.upperbound && u.depth.value >= 4 then
            var changes := if Some(pv[0]) != st2.oldTmpMove then st2.changes + 1 else st2.changes;
            Settle(st2.(tmpMove := Some(pv[0]), changes := changes), t, lim)
          else Settle(st2, t, lim)
      else if u.multipv.value == 2 then
        if |pv| == 0 then st1
        else Settle(st1.(bm2 := Some(pv[0]), bs2 := u.score), t, lim)
      else Settle(st1, t, lim)
  }

  /** How one update moves the recorded moves: `tmpmove` takes the first PV
      move of a candidate the loop does not break on, and `oldtmpmove` takes
      `tmpmove` exactly when the update reaches line 266. */
  lemma StepRecords(st: SearchState, u: Update, lim: Limits, r: SearchState)
    requires r == Step(st, u, lim)
    ensures r.tmpMove == (if Records(st, u, lim) then Some(u.pv.value[0]) else st.tmpMove)
    ensures !st.stopped ==> r.oldTmpMove == (if ReachesRecording(u, r, lim) then r.tmpMove else st.oldTmpMove)
  {
  }

  /** Number of complexity candidates in a stream. */
  function Candidates(us: seq<Update>): (n: nat)
    ensures n <= |us|
  {
    if |us| == 0 then 0 else (if Candidate(us[0]) then 1 else 0) + Candidates(us[1..])
  }

  /** The whole session: the loop over the stream. */
  function Run(st: SearchState, us: seq<Update>, lim: Limits): (r: SearchState)
    ensures st.changes <= r.changes <= st.changes + Candidates(us)
    ensures st.stopped ==> r == st
    ensures Wf(st) ==> Wf(r)
    decreases |us|
  {
    if |us| == 0 then st else Run(Step(st, us[0], lim), us[1..], lim)
  }

  /** Number of updates the loop reads before it leaves (the stopping update included). */
  function Consumed(st: SearchState, us: seq<Update>, lim: Limits): (n: nat)
    ensures n <= |us|
    ensures st.stopped ==> n == 0
    decreases |us|
  {
    if |us| == 0 || st.stopped then 0 else 1 + Consumed(Step(st, us[0], lim), us[1..], lim)
  }

  /** The imperative loop, with its `break`, computes the fold. */
  method Analyse(st0: SearchState, us: seq<Update>, lim: Limits) returns (r: SearchState)
    ensures r == Run(st0, us, lim)
  {
    r := st0;
    var i := 0;
    while i < |us|
      invariant 0 <= i <= |us|
      invariant Run(r, us[i..], lim) == Run(st0, us, lim)
    {
      if r.stopped {
        break;
      }
      assert us[i..][1..] == us[i + 1..];
      r := Step(r, us[i], lim);
      i := i + 1;
    }
  }

  // ----- Reference: the latest full update of a line -----

  /** The last full update for line `k` in `us`, scanning from the back. */
  function LatestFull(us: seq<Update>, k: int): (r: Option<Update>)
    ensures r.Some? ==> Full(r.value, k) && r.value in us
    ensures r.None? ==> forall i :: 0 <= i < |us| ==> !Full(us[i], k)
    ensures r.Some? ==> exists i :: 0 <= i < |us| && us[i] == r.value && forall j :: i < j < |us| ==> !Full(us[j], k)
  {
    if |us| == 0 then None
    else if Full(us[|us| - 1], k) then Some(us[|us| - 1])
    else LatestFull(us[..|us| - 1], k)
  }

  function Pick(latest: Option<Update>, fallback: (Option<Move>, Option<int>)): (Option<Move>, Option<int>)
    requires latest.Some? ==> Complete(latest.value) && |latest.value.pv.value| > 0
  {
    match latest
    case Some(u) => Reported(u)
    case None => fallback
  }

  // ----- Lemmas -----

  /** Reading `a` and then `b` is reading `a + b`. */
  lemma {:induction false} RunAppend(st: SearchState, a: seq<Update>, b: seq<Update>, lim: Limits)
    ensures Run(st, a + b, lim) == Run(Run(st, a, lim), b, lim)
    decreases |a|
  {
    if |a| == 0 {
      assert a + b == b;
    } else {
      assert (a + b)[1..] == a[1..] + b;
      RunAppend(Step(st, a[0], lim), a[1..], b, lim);
    }
  }

  /** Once the loop has stopped, no later update changes anything. */
  lemma StopIsFinal(st: SearchState, a: seq<Update>, b: seq<Update>, lim: Limits)
    requires Run(st, a, lim).stopped
    ensures Run(st, a + b, lim) == Run(st, a, lim)
  {
    RunAppend(st, a, b, lim);
  }

  /** The complexity counter never decreases along the stream. */
  lemma CounterGrows(st: SearchState, a: seq<Update>, b: seq<Update>, lim: Limits)
    ensures Run(st, a, lim).changes <= Run(st, a + b, lim).changes
  {
    RunAppend(st, a, b, lim);
  }

  /** The loop reads exactly the first `Consumed` updates: before each of
      them it was still running, and if it reads fewer than all, it stopped. */
  lemma {:induction false} ConsumedPrefix(st: SearchState, us: seq<Update>, lim: Limits)
    ensures Run(st, us[..Consumed(st, us, lim)], lim) == Run(st, us, lim)
    ensures Consumed(st, us, lim) < |us| ==> Run(st, us, lim).stopped
    ensures forall j :: 0 <= j < Consumed(st, us, lim) ==> !Run(st, us[..j], lim).stopped
    decreases |us|
  {
    var n := Consumed(st, us, lim);
    if |us| == 0 || st.stopped {
      assert us[..n] == [];
    } else {
      var s1 := Step(st, us[0], lim);
      ConsumedPrefix(s1, us[1..], lim);
      assert us[..n][0] == us[0];
      assert us[..n][1..] == us[1..][..n - 1];
      forall j | 0 < j < n
        ensures !Run(st, us[..j], lim).stopped
      {
        assert us[..j][0] == us[0] && us[..j][1..] == us[1..][..j - 1];
      }
      assert us[..0] == [];
    }
  }

  lemma {:induction false} LatestFullCons(u: Update, rest: seq<Update>, k: int)
    ensures LatestFull([u] + rest, k) == (if LatestFull(rest, k).Some? then LatestFull(rest, k) else LatestFull([u], k))
    decreases |rest|
  {
    if |rest| == 0 {
      assert [u] + rest == [u];
    } else {
      var all := [u] + rest;
      assert all[|all| - 1] == rest[|rest| - 1];
      assert all[..|all| - 1] == [u] + rest[..|rest| - 1];
      LatestFullCons(u, rest[..|rest| - 1], k);
    }
  }

  /** At the end of the session each line shows the move and score of the
      latest full update for it among the updates read, or what it held
      before the session if there was none. */
  lemma {:induction false} LineIsLatest(st: SearchState, us: seq<Update>, lim: Limits, k: int)
    requires k == 1 || k == 2
    ensures Line(Run(st, us, lim), k) == Pick(LatestFull(us[..Consumed(st, us, lim)], k), Line(st, k))
    decreases |us|
  {
    var n := Consumed(st, us, lim);
    if |us| == 0 || st.stopped {
      assert us[..n] == [];
    } else {
      var s1 := Step(st, us[0], lim);
      var c := Consumed(s1, us[1..], lim);
      LineIsLatest(s1, us[1..], lim, k);
      assert us[..n] == [us[0]] + us[1..][..c];
      LatestFullCons(us[0], us[1..][..c], k);
      assert [us[0]][..0] == [];
    }
  }

  /** The stored PV is the first five moves of the latest full rank-1 update read. */
  lemma {:induction false} PvIsLatest(st: SearchState, us: seq<Update>, lim: Limits)
    ensures var latest := LatestFull(us[..Consumed(st, us, lim)], 1);
            Run(st, us, lim).rawPv == (if latest.Some? then Some(Head5(latest.value.pv.value)) else st.rawPv)
    decreases |us|
  {
    var n := Consumed(st, us, lim);
    if |us| == 0 || st.stopped {
      assert us[..n] == [];
    } else {
      var s1 := Step(st, us[0], lim);
      var c := Consumed(s1, us[1..], lim);
      PvIsLatest(s1, us[1..], lim);
      assert us[..n] == [us[0]] + us[1..][..c];
      LatestFullCons(us[0], us[1..][..c], 1);
      assert [us[0]][..0] == [];
    }
  }

  /** The recorded moves start out empty, so the first complexity candidate
      of a session already counts as a change, whatever updates without a
      candidate come before it. */
  lemma FirstCandidateCounts(bs1: Option<int>, bs2: Option<int>, pre: seq<Update>, u: Update, lim: Limits)
    requires forall i :: 0 <= i < |pre| ==> !Candidate(pre[i])
    requires !Run(Begin(bs1, bs2), pre, lim).stopped && Candidate(u) && !Hopeless(u, lim)
    ensures Run(Begin(bs1, bs2), pre + [u], lim).changes == 1
  {
    var st := Begin(bs1, bs2);
    NoCandidateRecordsNothing(st, pre, lim);
    RunAppend(st, pre, [u], lim);
    var mid := Run(st, pre, lim);
    assert Run(mid, [u], lim) == Run(Step(mid, u, lim), [], lim);
  }

  /** Updates without a candidate leave the counter and both recorded moves as they were, while these are empty. */
  lemma {:induction false} NoCandidateRecordsNothing(st: SearchState, us: seq<Update>, lim: Limits)
    requires st.tmpMove.None? && st.oldTmpMove.None?
    requires forall i :: 0 <= i < |us| ==> !Candidate(us[i])
    ensures var r := Run(st, us, lim);
            r.tmpMove.None? && r.oldTmpMove.None? && r.changes == st.changes
    decreases |us|
  {
    if |us| > 0 {
      var r := Step(st, us[0], lim);
      StepRecords(st, us[0], lim, r);
      NoCandidateRecordsNothing(r, us[1..], lim);
    }
  }

  /** A rank-1 complexity candidate with first move `m` that the loop does not break on. */
  predicate RepeatOf(u: Update, m: Move, lim: Limits) {
    Candidate(u) && !Hopeless(u, lim) && u.pv.value[0] == m
  }

  /** While `bs2` is unassigned, every candidate after the minimum time
      raises in the gap check, the recording of the previous move is
      skipped, and the same best move counts again each time. */
  lemma {:induction false} RecountWhileUnscored(st: SearchState, us: seq<Update>, m: Move, lim: Limits)
    requires !st.stopped && st.bs2.None? && st.oldTmpMove != Some(m)
    requires forall i :: 0 <= i < |us| ==> RepeatOf(us[i], m, lim) && us[i].timeMs.value >= lim.minTimeMs
    ensures Run(st, us, lim).changes == st.changes + |us|
    decreases |us|
  {
    if |us| > 0 {
      var r := Step(st, us[0], lim);
      StepRecords(st, us[0], lim, r);
      assert Line(r, 2) == Line(st, 2);
      assert r.oldTmpMove == st.oldTmpMove && !r.stopped;
      RecountWhileUnscored(r, us[1..], m, lim);
    }
  }

  /** Once both scores are known and the gap stays wide enough, repeating
      the same best move counts at most once. */
  lemma {:induction false} CountOnceWhenScored(st: SearchState, us: seq<Update>, m: Move, lim: Limits)
    requires !st.stopped && st.bs2.Some?
    requires forall i :: 0 <= i < |us| ==>
               RepeatOf(us[i], m, lim) && 2 * (us[i].score.value - st.bs2.value) >= MinGap(lim.th)
    ensures Run(st, us, lim).changes == st.changes + (if |us| > 0 && st.oldTmpMove != Some(m) then 1 else 0)
    decreases |us|
  {
    if |us| > 0 {
      var r := Step(st, us[0], lim);
      StepRecords(st, us[0], lim, r);
      assert Line(r, 2) == Line(st, 2) && Line(r, 1) == Reported(us[0]);
      assert r.oldTmpMove == Some(m) && !r.stopped;
      CountOnceWhenScored(r, us[1..], m, lim);
    }
  }

  /** When the rank-2 score was never assigned, the recording of the previous
      move is skipped after the minimum time, so the same best move counts
      again at every candidate update; once both scores are known it counts once. */
  lemma UnassignedScoreRecounts()
    ensures var lim := Limits(2000, InterestingDefaults);
            var u := Update(Some(1), Some(10), Some(800), Some(["e2e4"]), Some(3000), false, false);
            && Run(Begin(None, None), [u, u, u], lim).changes == 3
            && Run(Begin(None, Some(100)), [u, u, u], lim).changes == 1
  {
    var lim := Limits(2000, InterestingDefaults);
    var u := Update(Some(1), Some(10), Some(800), Some(["e2e4"]), Some(3000), false, false);
    assert [u, u, u][1..] == [u, u];
    assert [u, u][1..] == [u];
    assert [u][1..] == [];
    var a1 := Step(Begin(None, None), u, lim);
    assert a1.changes == 1 && a1.oldTmpMove == None && !a1.stopped;
    var a2 := Step(a1, u, lim);
    assert a2.changes == 2 && a2.oldTmpMove == None && !a2.stopped;
    var a3 := Step(a2, u, lim);
    assert a3.changes == 3;
    assert Run(a3, [], lim) == a3;
    assert Run(a2, [u], lim) == Run(a3, [], lim);
    assert Run(a1, [u, u], lim) == Run(a2, [u], lim);
    assert Run(Begin(None, None), [u, u, u], lim) == Run(a1, [u, u], lim);
    var b1 := Step(Begin(None, Some(100)), u, lim);
    assert b1.changes == 1 && b1.oldTmpMove == Some("e2e4") && !b1.stopped;
    var b2 := Step(b1, u, lim);
    assert b2.changes == 1 && b2.oldTmpMove == Some("e2e4") && !b2.stopped;
    var b3 := Step(b2, u, lim);
    assert b3.changes == 1;
    assert Run(b3, [], lim) == b3;
    assert Run(b2, [u], lim) == Run(b3, [], lim);
    assert Run(b1, [u, u], lim) == Run(b2, [u], lim);
    assert Run(Begin(None, Some(100)), [u, u, u], lim) == Run(b1, [u, u], lim);
  }
}

=== FILE: Walk.dfy ===
/** The reverse walk over one game in `analyze_game`
    (chess-chiller.py:164-209) with the static gate before each search and
    the save decision after it (chess-chiller.py:282-317). Board queries of
    the chess library (check, pin, capture) are given per position. */
module Walk {
  import opened Options
  import opened Material
  import opened Scores
  import opened Classify
  import opened Search

  /** The walk stops once the board about to be popped has a lower move number. */
  const StartMove := 16

  const DrawResult := "1/2-1/2"

  /** One board of the game. `fullmove` is its move number, `epd` its EPD
      text, `inCheck` whether the side to move is in check,
      `opponentPinned` whether a non-pawn piece of the side not to move is
      pinned, `captures` the moves that capture on it, and `analysis` the
      stream the engine produces when asked to analyse it. */
  datatype Position = Position(fullmove: int, epd: string, inCheck: bool, opponentPinned: bool,
                               captures: set<Move>, analysis: seq<Update>)

  /** A game: its result header and its boards from the final position back
      to the initial one; popping the last move of `boards[i]` gives `boards[i + 1]`. */
  datatype Game = Game(result: string, boards: seq<Position>)

  datatype Config = Config(startMove: int, minPieceValue: int, pin: bool, skipDraw: bool,
                           positional: bool, minTimeMs: int, th: Thresholds)

  /** The configuration `main` passes on: the move floor 16 and the mode's thresholds. */
  function MainConfig(positional: bool, pin: bool, skipDraw: bool, minPieceValue: int, minTimeMs: int): (cfg: Config)
    ensures cfg.startMove == StartMove && cfg.th == Defaults(positional) && Ordered(cfg.th)
    ensures cfg.positional == positional && cfg.pin == pin && cfg.skipDraw == skipDraw
    ensures cfg.minPieceValue == minPieceValue && cfg.minTimeMs == minTimeMs
  {
    Config(StartMove, minPieceValue, pin, skipDraw, positional, minTimeMs, Defaults(positional))
  }

  function LimitsOf(cfg: Config): Limits {
    Limits(cfg.minTimeMs, cfg.th)
  }

  datatype SkipReason = LowMaterial | NoPin | InCheck

  /** What the static filters decide about a popped board; `NoPlacement` is
      the crash of `piece_value` on an EPD text without any field. */
  datatype Gate = Proceed | Skip(why: SkipReason) | NoPlacement

  function GateOf(pos: Position, cfg: Config): (g: Gate)
    ensures g == NoPlacement <==> PieceValue(pos.epd).None?
    ensures g == Proceed <==>
              && PieceValue(pos.epd).Some?
              && PieceValue(pos.epd).value >= cfg.minPieceValue
              && (!cfg.pin || pos.opponentPinned)
              && !pos.inCheck
    ensures g == Skip(LowMaterial) <==> PieceValue(pos.epd).Some? && PieceValue(pos.epd).value < cfg.minPieceValue
    ensures g == Skip(NoPin) <==>
              && PieceValue(pos.epd).Some?
              && PieceValue(pos.epd).value >= cfg.minPieceValue
              && cfg.pin && !pos.opponentPinned
    ensures g == Skip(InCheck) <==>
              && PieceValue(pos.epd).Some?
              && PieceValue(pos.epd).value >= cfg.minPieceValue
              && (!cfg.pin || pos.opponentPinned)
              && pos.inCheck
  {
    match PieceValue(pos.epd)
    case None => NoPlacement
    case Some(value) =>
      if value < cfg.minPieceValue then Skip(LowMaterial)
      else if cfg.pin && !pos.opponentPinned then Skip(NoPin)
      else if pos.inCheck then Skip(InCheck)
      else Proceed
  }

  predicate IsCapture(pos: Position, m: Move) {
    m in pos.captures
  }

  /** A UCI move of five characters carries a promotion piece. */
  predicate IsPromotion(m: Move) {
    |m| == 5
  }

  datatype RejectReason = LowScore | SimpleCapture | NarrowGap | CaptureOrPromotion | Unclassified

  /** Errors that escape `analyze_game`: popping the initial board, an EPD
      text without fields, and a score or move read before it was assigned. */
  datatype Fault = EmptyMoveStack | NoPlacementField | NoBestScore1 | NoBestMove1 | NoBestScore2

  datatype Verdict = Save | Reject(why: RejectReason) | Abort(fault: Fault)

  /** Every save filter passes and the mode's classifier accepts the scores. */
  predicate Saveable(pos: Position, s: SearchState, cfg: Config) {
    && s.bs1.Some? && s.bs2.Some? && s.bm1.Some?
    && s.bs1.value >= cfg.th.floor3
    && !(IsCapture(pos, s.bm1.value) && s.changes <= 1)
    && s.bs1.value - s.bs2.value >= cfg.th.floor3 - cfg.th.ceil3
    && (cfg.positional ==> !IsCapture(pos, s.bm1.value) && !IsPromotion(s.bm1.value))
    && Classifies(s.bs1.value, s.bs2.value, cfg.th, cfg.positional)
  }

  /** What follows the search, in the source's order: the log lines right
      after it read `bs1` and then `bs2`, raising when either was never
      assigned; then the save filters. */
  function Decide(pos: Position, s: SearchState, cfg: Config): (v: Verdict)
    ensures v == Save <==> Saveable(pos, s, cfg)
    ensures v == Abort(NoBestScore1) <==> s.bs1.None?
    ensures v == Abort(NoBestScore2) <==> s.bs1.Some? && s.bs2.None?
    ensures v == Abort(NoBestMove1) <==>
              s.bs1.Some? && s.bs2.Some? && s.bs1.value >= cfg.th.floor3 && s.bm1.None?
    ensures v.Abort? <==> s.bs1.None? || s.bs2.None? || (s.bs1.value >= cfg.th.floor3 && s.bm1.None?)
    ensures s.bs1.Some? && s.bs2.Some? && s.bs1.value < cfg.th.floor3 ==> v == Reject(LowScore)
  {
    if s.bs1.None? then Abort(NoBestScore1)
    else if s.bs2.None? then Abort(NoBestScore2)
    else if s.bs1.value < cfg.th.floor3 then Reject(LowScore)
    else if s.bm1.None? then Abort(NoBestMove1)
    else if IsCapture(pos, s.bm1.value) && s.changes <= 1 then Reject(SimpleCapture)
    else if s.bs1.value - s.bs2.value < cfg.th.floor3 - cfg.th.ceil3 then Reject(NarrowGap)
    else if cfg.positional && (IsCapture(pos, s.bm1.value) || IsPromotion(s.bm1.value)) then Reject(CaptureOrPromotion)
    else if Classifies(s.bs1.value, s.bs2.value, cfg.th, cfg.positional) then Save
    else Reject(Unclassified)
  }

  /** What happened to the board at index `ply` of the game. A search whose
      save decision raises is the last visit of its walk. */
  datatype Visit = Skipped(ply: nat, why: SkipReason)
                 | Searched(ply: nat, search: SearchState, verdict: Verdict)

  datatype Ending = ReachedStartMove | DrawSkipped | Crashed(fault: Fault)

  datatype Report = Report(visits: seq<Visit>, ending: Ending)

  /** The visit is what the gate and the save decision say about its board. */
  predicate VisitAgrees(g: Game, cfg: Config, v: Visit) {
    && 0 <= v.ply < |g.boards|
    && match v
       case Skipped(p, why) => GateOf(g.boards[p], cfg) == Skip(why)
       case Searched(p, s, verdict) => GateOf(g.boards[p], cfg) == Proceed && verdict == Decide(g.boards[p], s, cfg)
  }

  predicate Aborted(v: Visit) {
    v.Searched? && v.verdict.Abort?
  }

  /** The last visit is a search whose save decision raised. */
  predicate EndsInAbort(vs: seq<Visit>) {
    |vs| > 0 && Aborted(vs[|vs| - 1])
  }

  /** The result of one pop: a visit and the scores the next search starts
      from, or the crash on an EPD text without fields. */
  datatype Advance = Next(visit: Visit, bs1: Option<int>, bs2: Option<int>) | Halt(ending: Ending)

  /** One pass of the walk's loop body after the pop of `boards[i]`: gate
      `boards[i + 1]`, search it, decide. */
  function AdvanceFrom(g: Game, cfg: Config, i: nat, bs1: Option<int>, bs2: Option<int>): (a: Advance)
    requires i + 1 < |g.boards|
    ensures a.Halt? <==> GateOf(g.boards[i + 1], cfg) == NoPlacement
    ensures a.Halt? ==> a.ending == Crashed(NoPlacementField)
    ensures a.Next? ==> a.visit.ply == i + 1 && VisitAgrees(g, cfg, a.visit)
    ensures a.Next? && a.visit.Searched? ==>
              && a.visit.search == Run(Begin(bs1, bs2), g.boards[i + 1].analysis, LimitsOf(cfg))
              && a.bs1 == a.visit.search.bs1 && a.bs2 == a.visit.search.bs2
    ensures a.Next? && a.visit.Skipped? ==> a.bs1 == bs1 && a.bs2 == bs2
  {
    var pos := g.boards[i + 1];
    match GateOf(pos, cfg)
    case NoPlacement => Halt(Crashed(NoPlacementField))
    case Skip(why) => Next(Skipped(i + 1, why), bs1, bs2)
    case Proceed =>
      var s := Run(Begin(bs1, bs2), pos.analysis, LimitsOf(cfg));
      Next(Searched(i + 1, s, Decide(pos, s, cfg)), s.bs1, s.bs2)
  }

  /** The walk from `boards[i]`, with the scores carried over from earlier searches. */
  function WalkFrom(g: Game, cfg: Config, i: nat, bs1: Option<int>, bs2: Option<int>): (r: Report)
    requires i < |g.boards|
    ensures i + |r.visits| < |g.boards|
    ensures forall k :: 0 <= k < |r.visits| ==> r.visits[k].ply == i + 1 + k
    ensures forall m :: i <= m < i + |r.visits| ==> g.boards[m].fullmove >= cfg.startMove
    ensures r.ending != DrawSkipped
    decreases |g.boards| - i
  {
    if g.boards[i].fullmove < cfg.startMove then Report([], ReachedStartMove)
    else if i + 1 == |g.boards| then Report([], Crashed(EmptyMoveStack))
    else
      var a := AdvanceFrom(g, cfg, i, bs1, bs2);
      if a.Halt? then Report([], a.ending)
      else if Aborted(a.visit) then Report([a.visit], Crashed(a.visit.verdict.fault))
      else
        var rest := WalkFrom(g, cfg, i + 1, a.bs1, a.bs2);
        Report([a.visit] + rest.visits, rest.ending)
  }

  /** Every visit is what the gate and the save decision say about its
      board, and only the last one can be a search whose decision raised. */
  lemma {:induction false} VisitsAgree(g: Game, cfg: Config, i: nat, bs1: Option<int>, bs2: Option<int>, r: Report)
    requires i < |g.boards| && r == WalkFrom(g, cfg, i, bs1, bs2)
    ensures forall k :: 0 <= k < |r.visits| ==> VisitAgrees(g, cfg, r.visits[k])
    ensures forall k :: 0 <= k < |r.visits| - 1 ==> !Aborted(r.visits[k])
    decreases |g.boards| - i
  {
    if g.boards[i].fullmove >= cfg.startMove && i + 1 < |g.boards| {
      var a := AdvanceFrom(g, cfg, i, bs1, bs2);
      if a.Next? && !Aborted(a.visit) {
        var rest := WalkFrom(g, cfg, i + 1, a.bs1, a.bs2);
        VisitsAgree(g, cfg, i + 1, a.bs1, a.bs2, rest);
        assert r.visits == [a.visit] + rest.visits;
        VisitsExtend(g, cfg, a.visit, rest.visits);
      }
    }
  }

  lemma VisitsExtend(g: Game, cfg: Config, v: Visit, vs: seq<Visit>)
    requires VisitAgrees(g, cfg, v) && !Aborted(v)
    requires forall k :: 0 <= k < |vs| ==> VisitAgrees(g, cfg, vs[k])
    requires forall k :: 0 <= k < |vs| - 1 ==> !Aborted(vs[k])
    ensures forall k :: 0 <= k < |[v] + vs| ==> VisitAgrees(g, cfg, ([v] + vs)[k])
    ensures forall k :: 0 <= k < |[v] + vs| - 1 ==> !Aborted(([v] + vs)[k])
  {
    var w := [v] + vs;
    forall k | 0 < k < |w|
      ensures w[k] == vs[k - 1]
    {
    }
  }

  /** How the walk from `boards[i]` with the visits `vs` may have ended: at
      the first board about to be popped whose move number is below the
      floor, on popping the initial board, on an EPD text without fields in
      the board just popped, or with the fault the save decision of the last
      visit raised. */
  predicate EndingAgrees(g: Game, cfg: Config, i: nat, vs: seq<Visit>, e: Ending)
    requires i + |vs| < |g.boards|
  {
    var j := i + |vs|;
    match e
    case ReachedStartMove => !EndsInAbort(vs) && g.boards[j].fullmove < cfg.startMove
    case DrawSkipped => false
    case Crashed(f) =>
      if EndsInAbort(vs) then vs[|vs| - 1].verdict == Abort(f)
      else
        && g.boards[j].fullmove >= cfg.startMove
        && if f == EmptyMoveStack then j + 1 == |g.boards|
           else f == NoPlacementField && j + 1 < |g.boards| && GateOf(g.boards[j + 1], cfg) == NoPlacement
  }

  lemma {:induction false} WalkEnding(g: Game, cfg: Config, i: nat, bs1: Option<int>, bs2: Option<int>, r: Report)
    requires i < |g.boards| && r == WalkFrom(g, cfg, i, bs1, bs2)
    ensures EndingAgrees(g, cfg, i, r.visits, r.ending)
    decreases |g.boards| - i
  {
    if g.boards[i].fullmove >= cfg.startMove && i + 1 < |g.boards| {
      var a := AdvanceFrom(g, cfg, i, bs1, bs2);
      if a.Next? && !Aborted(a.visit) {
        var rest := WalkFrom(g, cfg, i + 1, a.bs1, a.bs2);
        WalkEnding(g, cfg, i + 1, a.bs1, a.bs2, rest);
        assert r.visits == [a.visit] + rest.visits && r.ending == rest.ending;
        EndingExtends(g, cfg, i, a.visit, rest.visits, r.ending);
      }
    }
  }

  /** A visit that did not raise, put in front, leaves the ending's account unchanged. */
  lemma EndingExtends(g: Game, cfg: Config, i: nat, v: Visit, vs: seq<Visit>, e: Ending)
    requires i + 1 + |vs| < |g.boards| && !Aborted(v)
    requires EndingAgrees(g, cfg, i + 1, vs, e)
    ensures EndingAgrees(g, cfg, i, [v] + vs, e)
  {
    assert |vs| > 0 ==> ([v] + vs)[|vs|] == vs[|vs| - 1];
  }

  /** `analyze_game` on one game: drawn games are skipped when asked, and
      no score is known before the first search. */
  function AnalyzeGame(g: Game, cfg: Config): (r: Report)
    requires |g.boards| > 0
    ensures r.ending == DrawSkipped <==> cfg.skipDraw && g.result == DrawResult
    ensures r.ending == DrawSkipped ==> r.visits == []
    ensures |r.visits| < |g.boards|
    ensures forall k :: 0 <= k < |r.visits| ==> r.visits[k].ply == k + 1 && VisitAgrees(g, cfg, r.visits[k])
    ensures forall k :: 0 <= k < |r.visits| - 1 ==> !Aborted(r.visits[k])
    ensures forall m :: 0 <= m < |r.visits| ==> g.boards[m].fullmove >= cfg.startMove
    ensures r.ending != DrawSkipped ==> EndingAgrees(g, cfg, 0, r.visits, r.ending)
    ensures r.ending == ReachedStartMove <==>
              r.ending != DrawSkipped && !EndsInAbort(r.visits) && g.boards[|r.visits|].fullmove < cfg.startMove
  {
    if cfg.skipDraw && g.result == DrawResult then Report([], DrawSkipped)
    else
      var r := WalkFrom(g, cfg, 0, None, None);
      VisitsAgree(g, cfg, 0, None, None, r);
      WalkEnding(g, cfg, 0, None, None, r);
      r
  }

  // ----- Reference: the scores a search starts from -----

  /** The scores a visit leaves: a search replaces them, a skip keeps them. */
  function ScoresAfter(v: Visit, scores: (Option<int>, Option<int>)): (Option<int>, Option<int>) {
    if v.Searched? then (v.search.bs1, v.search.bs2) else scores
  }

  /** The scores left after the visits `vs`, starting from `init`: those of
      the latest searched visit, or `init` if there is none. */
  function ScoresBefore(vs: seq<Visit>, init: (Option<int>, Option<int>)): (Option<int>, Option<int>) {
    if |vs| == 0 then init else ScoresBefore(vs[1..], ScoresAfter(vs[0], init))
  }

  lemma ScoresBeforeCons(v: Visit, rest: seq<Visit>, init: (Option<int>, Option<int>))
    ensures ScoresBefore([v] + rest, init) == ScoresBefore(rest, ScoresAfter(v, init))
  {
    assert ([v] + rest)[1..] == rest;
  }

  lemma AdvanceScores(g: Game, cfg: Config, i: nat, bs1: Option<int>, bs2: Option<int>, a: Advance)
    requires i + 1 < |g.boards| && a == AdvanceFrom(g, cfg, i, bs1, bs2) && a.Next?
    ensures ScoresAfter(a.visit, (bs1, bs2)) == (a.bs1, a.bs2)
  {
  }

  /** Each search of the walk is the session over its board's stream, started
      from the scores the latest earlier search left (the scores are not
      reset between positions). */
  lemma {:induction false} ScoresCarryOver(g: Game, cfg: Config, i: nat, bs1: Option<int>, bs2: Option<int>, r: Report)
    requires i < |g.boards| && r == WalkFrom(g, cfg, i, bs1, bs2)
    ensures forall k :: 0 <= k < |r.visits| && r.visits[k].Searched? ==>
              r.visits[k].search == Run(Begin(ScoresBefore(r.visits[..k], (bs1, bs2)).0,
                                              ScoresBefore(r.visits[..k], (bs1, bs2)).1),
                                        g.boards[r.visits[k].ply].analysis, LimitsOf(cfg))
    decreases |g.boards| - i
  {
    if g.boards[i].fullmove >= cfg.startMove && i + 1 < |g.boards| && AdvanceFrom(g, cfg, i, bs1, bs2).Next? {
      var a := AdvanceFrom(g, cfg, i, bs1, bs2);
      assert r.visits[..0] == [];
      if Aborted(a.visit) {
        assert r.visits == [a.visit];
        return;
      }
      var rest := WalkFrom(g, cfg, i + 1, a.bs1, a.bs2);
      ScoresCarryOver(g, cfg, i + 1, a.bs1, a.bs2, rest);
      assert r.visits == [a.visit] + rest.visits;
      AdvanceScores(g, cfg, i, bs1, bs2, a);
      CarryExtend(g, cfg, a.visit, rest.visits, (bs1, bs2), (a.bs1, a.bs2));
      assert r.visits[..0] == [];
    }
  }

  /** A visit that starts from `init` and leaves `next`, put in front of
      visits that carry over from `next`, gives visits that carry over from `init`. */
  lemma CarryExtend(g: Game, cfg: Config, v: Visit, vs: seq<Visit>,
                    init: (Option<int>, Option<int>), next: (Option<int>, Option<int>))
    requires ScoresAfter(v, init) == next
    requires v.ply < |g.boards| && forall k :: 0 <= k < |vs| ==> vs[k].ply < |g.boards|
    requires v.Searched? ==> v.search == Run(Begin(init.0, init.1), g.boards[v.ply].analysis, LimitsOf(cfg))
    requires forall k :: 0 <= k < |vs| && vs[k].Searched? ==>
               vs[k].search == Run(Begin(ScoresBefore(vs[..k], next).0, ScoresBefore(vs[..k], next).1),
                                   g.boards[vs[k].ply].analysis, LimitsOf(cfg))
    ensures forall k :: 0 <= k < |[v] + vs| && ([v] + vs)[k].Searched? ==>
              ([v] + vs)[k].search == Run(Begin(ScoresBefore(([v] + vs)[..k], init).0, ScoresBefore(([v] + vs)[..k], init).1),
                                          g.boards[([v] + vs)[k].ply].analysis, LimitsOf(cfg))
  {
    var w := [v] + vs;
    forall k | 0 < k < |w|
      ensures w[k] == vs[k - 1] && ScoresBefore(w[..k], init) == ScoresBefore(vs[..k - 1], next)
    {
      assert w[..k] == [v] + vs[..k - 1];
      ScoresBeforeCons(v, vs[..k - 1], init);
    }
    assert w[..0] == [];
  }

  /** Every position written out passed the gate, lies before the move-number
      floor was reached, and passed every save filter including the
      classifier. */
  lemma SavedPositionsQualify(g: Game, cfg: Config, k: nat)
    requires |g.boards| > 0
    requires k < |AnalyzeGame(g, cfg).visits|
    requires AnalyzeGame(g, cfg).visits[k].Searched? && AnalyzeGame(g, cfg).visits[k].verdict == Save
    ensures var v := AnalyzeGame(g, cfg).visits[k];
            var pos := g.boards[v.ply];
            && v.ply == k + 1
            && (forall m :: 0 <= m < v.ply ==> g.boards[m].fullmove >= cfg.startMove)
            && PieceValue(pos.epd).Some? && PieceValue(pos.epd).value >= cfg.minPieceValue
            && (!cfg.pin || pos.opponentPinned) && !pos.inCheck
            && Saveable(pos, v.search, cfg)
  {
  }

  /** A game's walk crashes in a save decision exactly when its last visit
      is a search whose decision raised; that search ran from the scores the
      earlier searches left, and the crash is the fault its decision raised. */
  lemma DecisionCrash(g: Game, cfg: Config)
    requires |g.boards| > 0 && !(cfg.skipDraw && g.result == DrawResult)
    ensures var r := AnalyzeGame(g, cfg);
            (r.ending.Crashed? && r.ending.fault != EmptyMoveStack && r.ending.fault != NoPlacementField)
            <==> EndsInAbort(r.visits)
    ensures var r := AnalyzeGame(g, cfg);
            EndsInAbort(r.visits) ==>
              var n := |r.visits| - 1;
              var v := r.visits[n];
              var start := ScoresBefore(r.visits[..n], (None, None));
              && v.search == Run(Begin(start.0, start.1), g.boards[v.ply].analysis, LimitsOf(cfg))
              && r.ending == Crashed(Decide(g.boards[v.ply], v.search, cfg).fault)
  {
    var r := AnalyzeGame(g, cfg);
    ScoresCarryOver(g, cfg, 0, None, None, r);
  }

  /** In the first search of a game no score is known yet. */
  lemma FirstSearchStartsUnscored(g: Game, cfg: Config, k: nat)
    requires |g.boards| > 0 && !(cfg.skipDraw && g.result == DrawResult)
    requires k < |AnalyzeGame(g, cfg).visits|
    requires AnalyzeGame(g, cfg).visits[k].Searched?
    requires forall j :: 0 <= j < k ==> AnalyzeGame(g, cfg).visits[j].Skipped?
    ensures var v := AnalyzeGame(g, cfg).visits[k];
            v.search == Run(Begin(None, None), g.boards[v.ply].analysis, LimitsOf(cfg))
  {
    var r := AnalyzeGame(g, cfg);
    ScoresCarryOver(g, cfg, 0, None, None, r);
    NoSearchedKeepsInit(r.visits[..k], (None, None));
  }

  lemma {:induction false} NoSearchedKeepsInit(vs: seq<Visit>, init: (Option<int>, Option<int>))
    requires forall j :: 0 <= j < |vs| ==> vs[j].Skipped?
    ensures ScoresBefore(vs, init) == init
    decreases |vs|
  {
    if |vs| > 0 {
      NoSearchedKeepsInit(vs[1..], init);
    }
  }


  /** A capturing best move with complexity at most 1 is rejected whatever the scores. */
  lemma SimpleCaptureRejected(pos: Position, s: SearchState, cfg: Config)
    requires s.bs1.Some? && s.bs2.Some? && s.bs1.value >= cfg.th.floor3 && s.bm1.Some?
    requires IsCapture(pos, s.bm1.value) && s.changes <= 1
    ensures Decide(pos, s, cfg) == Reject(SimpleCapture)
  {
  }

  /** A search that leaves `bs2` unassigned raises before any save filter,
      even when its best score is already too low to be saved. */
  lemma MissingScore2Aborts(pos: Position, s: SearchState, cfg: Config)
    requires s.bs1.Some? && s.bs2.None?
    ensures Decide(pos, s, cfg) == Abort(NoBestScore2)
  {
  }
}
